=== FILE: README.md ===
# Boot-info frame allocator and task ids of a hobby x86_64 kernel, in Dafny

This project models two small sequential pieces of a `no_std` Rust kernel.

**The boot-info physical frame allocator** (`src/memory.rs`).
`BootInfoFrameAllocator` holds the bootloader's memory map and a cursor
`next`. Its `useable_frames` iterator keeps only the `Usable` regions. It
walks each region's `[start, end)` range in steps of 4096 and turns every
address into the 4 KiB `PhysFrame` containing it. `allocate_frame` returns
element `next` of that sequence, or `None` past its end, and then always
increments `next`.

**The task-id counter** (`src/task/mod.rs`). `TaskId::new` does
`fetch_add(1)` on a static `AtomicU64` that starts at 0. `Task::new` attaches
such an id to a pinned future.

Modules:

- `Base` (`base.dfy`): `Option`, the `u64` range, and `Nth`, which plays the
  role of `Iterator::nth`.
- `Memory` (`memory.dfy`): region types, regions, frames and the
  `useable_frames` pipeline. Each stage is a function: `UsableRegions`
  (the filter), `StepBy`/`RegionAddresses`/`FrameAddresses` (the
  `step_by(4096)` flat-map) and `ToFrames`/`ContainingFrame` (alignment).
  The file also holds the lemmas about the frame sequence.
- `FrameAllocator` (`frame_allocator.dfy`): the allocator as an immutable
  record `{memoryMap, next}`. `AllocateFrame` is a pure state transition.
  `AllocateFrameLazily` computes the same result without building the
  frame sequence. It uses `NthUsableAddress`, an independent computation of
  the same element that skips each earlier usable region by its step count,
  and aligns only the address it finds. The source's iterator chain instead
  pulls every address up to position `next` one at a time and maps each of
  them to its frame; both give the same frame. `AllocateMany` models
  successive calls, and the lemmas cover exhaustion and uniqueness.
- `Task` (`task.dfy`): `TaskId`, the counter as a value passed from call to
  call, `Task::new`, `Task::poll` with an abstract future, and the lemmas
  on uniqueness and order.

A memory region is modelled as a pair of `u64` addresses. The bootloader
actually stores frame numbers, so its regions are always 4 KiB-aligned. The
model allows any addresses, and the lemmas that need alignment say so in their
preconditions.

Three behaviours of `src/memory.rs` worth noting:

- `allocate_frame` returns `None` as soon as `next` equals the number of
  usable frames.
- A usable range that starts on a 4 KiB boundary but whose length is not a
  multiple of 4096 still yields a whole frame for its last partial step, and
  that frame reaches past the region's end (see `Memory.PartialFrameKept`).
- For a region that does not start on a 4 KiB boundary, the first frame
  begins below the region's start, and the end of its range can fall in a
  frame that is never produced (see `Memory.UnalignedTailUncovered`).

## Model

| member | source | states |
|---|---|---|
| Memory.StepBy | src/memory.rs:85 | `(start..end).step_by(4096)` yields ⌈(end−start)/4096⌉ addresses when start < end and none otherwise; element i is start + 4096·i and every element is below end |
| Memory.StepByMembership | src/memory.rs:85 | an address is produced by the walk over `[start, end)` if and only if it lies in the range and is a whole number of 4096-byte steps above start |
| Memory.RegionAddresses | src/memory.rs:82-85 | a region's generated addresses are strictly increasing, each lies in `[start, end)` a whole number of steps above start, and there is one per started 4 KiB step |
| Memory.UsableRegions | src/memory.rs:79-80 | the filter keeps only `Usable` regions, all of them drawn from the map, and drops no `Usable` region of the map |
| Memory.FrameAddresses | src/memory.rs:85 | the `flat_map` of `step_by(4096)` over the kept regions yields as many addresses as the sum of the regions' step counts |
| Memory.UsableRegionsAppend | src/memory.rs:79-80 | filtering a concatenated map equals concatenating the filtered parts, so the filter preserves map order |
| Memory.ContainingFrame | src/memory.rs:87 | `containing_address` gives the unique 4096-aligned frame start at or below the address and within 4096 of it |
| Memory.ToFrames | src/memory.rs:87 | the final map step keeps the length, and every frame is aligned and contains its address, as long as `PhysAddr::new` accepts every address |
| Memory.UsableFrames | src/memory.rs:77-88 | `useable_frames` yields one frame per generated address, in the same order; each is 4096-aligned and contains its address |
| Memory.UsableAddressesAppend | src/memory.rs:79-85 | generating addresses appear in memory-map order: the addresses for a concatenated map are those of the first part followed by those of the second |
| Memory.UsableFramesAppend | src/memory.rs:79-87 | frames appear in memory-map order: `useable_frames` of a concatenated map is that of the first part followed by that of the second, and each part alone is a valid map |
| Memory.RegionFramesIncreasing | src/memory.rs:85-87 | within one usable region, aligned or not, frame i starts exactly 4096·i above the frame containing the region's start, so frame starts strictly increase |
| Memory.UsableFrameAt | src/memory.rs:87 | frame i of `useable_frames` is the frame containing generating address i |
| Memory.UsableAddressMembership | src/memory.rs:79-85 | only `Usable` regions contribute: an address is generated if and only if some usable region of the map contains it a whole number of steps above its start |
| Memory.UsableFrameCount | src/memory.rs:79-85 | the number of frames is the sum over usable regions of ⌈(end−start)/4096⌉ (zero for empty ranges) |
| Memory.UsableFrameTotalIsStepTotal | src/memory.rs:79-85 | counting steps entry by entry over the whole map, skipping non-`Usable` entries, gives the same total as summing the step counts of the regions the filter keeps |
| Memory.UsableAddressesDistinct | src/memory.rs:82-85 | pairwise disjoint usable regions never generate the same address twice |
| Memory.UsableAddressesSorted | src/memory.rs:79-85 | when usable regions are listed in ascending address order, the whole generated sequence is strictly increasing |
| Memory.AlignedFramesAreAddresses | src/memory.rs:85-87 | when usable regions start on a 4 KiB boundary, every frame starts exactly at its generating address |
| Memory.UsableFramesDistinct | src/memory.rs:79-87 | with frame-aligned, pairwise disjoint usable regions, `useable_frames` contains no frame twice |
| Memory.UsableFramesFromUsableRegions | src/memory.rs:79-87 | every frame is 4096-aligned, and its generating address lies in `[start, end)` of some usable region |
| Memory.PartialFrameKept | src/memory.rs:82-87 | a usable range 0x1000..0x2001 is not rejected; it yields two frames, the second covering its 1-byte tail |
| Memory.UnalignedRegionsShareFrame | src/memory.rs:85-87 | two disjoint usable regions 0..100 and 200..300, the second not starting on a 4 KiB boundary, both yield frame 0, so disjointness alone does not make the frames distinct |
| Memory.UnalignedTailUncovered | src/memory.rs:82-87 | the usable range 4000..4100, which starts off a 4 KiB boundary, yields only frame 0; that frame ends at 4096, so the region's last bytes lie in no yielded frame |
| Base.Nth | src/memory.rs:51 | `Iterator::nth(n)` returns `Some` exactly when `n` is below the length, and then it holds element `n` |
| FrameAllocator.Init | src/memory.rs:69-74 | `init` keeps the given memory map and starts the cursor at 0 |
| FrameAllocator.AllocateFrame | src/memory.rs:50-54 | a call returns element `next` of `useable_frames`, or `None` exactly when `next` is at or past its end; it leaves the map alone and always advances `next` by exactly one |
| FrameAllocator.AllocateFrameLazily | src/memory.rs:50-54 | an independent computation of the address at position `next`, aligned down to its frame, gives the same frame and cursor as element `next` of the frame sequence |
| FrameAllocator.NthUsableAddress | src/memory.rs:79-85 | an independent computation of element `n` of the filter/flat_map chain, which skips each earlier usable region by its step count (the source pulls every address one at a time), returns exactly position `n` of the generating addresses, or `None` past the end |
| FrameAllocator.WalkStep | src/memory.rs:79-85 | position `skip` of the address sequence is either inside the first entry's walk or `n` positions into the rest of the map, where `n` is that entry's count |
| FrameAllocator.AllocateMany | src/memory.rs:50-53 | after k calls the cursor has moved by k; call i (from 0) returns element `next + i`, so no position is ever read twice |
| FrameAllocator.InitFirstAllocation | src/memory.rs:69-74 | `init` starts the cursor at 0: the first call returns the map's first usable frame, or `None` if the map has none, and leaves the cursor at 1 |
| FrameAllocator.Exhaustion | src/memory.rs:50-53 | from `init`, call i (from 0) succeeds if and only if i is less than the number of usable frames N; calls 1..N succeed and every later one returns `None` |
| FrameAllocator.StaysExhausted | src/memory.rs:51-52 | once a call returns `None`, every later call returns `None` |
| FrameAllocator.AllocatedFrameIsUsable | src/memory.rs:79-87 | a returned frame is 4096-aligned and contains an address inside some `Usable` region of the map |
| FrameAllocator.NoFrameAllocatedTwice | src/memory.rs:50-53 | with frame-aligned, pairwise disjoint usable regions, no two calls of a run return the same frame |
| Task.IdLessStrictTotalOrder | src/task/mod.rs:38-39 | the derived `Ord` on `TaskId`, modelled by `IdLess` as comparison of the wrapped `u64`, is irreflexive, transitive and total on distinct ids |
| Task.NewTaskId | src/task/mod.rs:42-45 | `TaskId::new` returns the counter's value before the call; the counter ends exactly one higher, and the new id is below the next one, except that the largest `u64` wraps the counter to 0 |
| Task.IssueIds | src/task/mod.rs:43-44 | k successive calls: call i (from 0) yields the starting counter plus i modulo 2^64, and the counter ends k higher modulo 2^64 |
| Task.IdsAreCallIndices | src/task/mod.rs:43-44 | from the initial counter 0, call i (from 0) yields `TaskId(i)` for the first 2^64 calls; the first id is `TaskId(0)` |
| Task.IdsStrictlyIncreasing | src/task/mod.rs:38-44 | while fewer than 2^64 ids have been issued, later ids are strictly larger under the derived order and hence pairwise distinct |
| Task.IdRepeatsAfterWrap | src/task/mod.rs:43-44 | `fetch_add` wraps: call number 2^64 after any state yields the same id as the first call |
| Task.NewTask | src/task/mod.rs:25-30 | `Task::new` keeps the given future and takes its id from `TaskId::new`, advancing the counter in the same way |
| Task.SpawnTasks | src/task/mod.rs:25-30 | successive `Task::new` calls keep each future and assign consecutive ids modulo 2^64; within 2^64 ids they are strictly increasing, so distinct |
| Task.PollTask | src/task/mod.rs:33-35 | `poll` hands the result over from the future's own poll, and the task's id is unchanged |

## Left out

- `active_level_4_table` and `memory::init` (src/memory.rs:11-27) read the CR3 register and dereference a raw pointer at the physical-memory offset. This is hardware state with no pure behaviour to state.
- `create_example_mapping` (src/memory.rs:30-45) wraps `OffsetPageTable::map_to` and the TLB `flush` of the `x86_64` crate. The page-table walk, mapping and translation belong to that crate, which is not part of this model.
- `EmptyFrameAllocator` (src/memory.rs:47) is a unit struct with no behaviour in this file.
- Memory.UsableFrames: `PhysAddr::new` panics on an address with bits 52–63 set. The model turns this into the precondition `ValidMap`, which requires every generated usable address to be below 2^52. The lazy source panics only when `nth` reaches such an address, so this precondition is stronger than the source's. Every allocator member inherits it.
- FrameAllocator.AllocateFrame: the cursor is an unbounded `nat`. The source's `next: usize` would overflow after 2^64 calls, and the model does not cover that.
- Task.PollTask: the future behind `Pin<Box<dyn Future>>` is opaque. It is a type parameter, and its `poll` is a function parameter, so the wake `Context`, `Box::pin` and pinning are not modelled.
- `NEXT_ID` is an atomic with `Ordering::Relaxed` (src/task/mod.rs:43-44). It is modelled as a plain counter passed from one call to the next, with no concurrency.
- The `executor`, `simple_executor` and `keyboard` submodules (src/task/mod.rs:9-11) are declared there but are not part of this model.
- `src/main.rs` has only an entry point and a panic handler, both endless `loop {}`s with no logic.

=== FILE: base.dfy ===
/** Small shared vocabulary: Rust's `Option`, the `u64` integer range and
    `Iterator::nth` over a materialised sequence. */
module Base {

  /** Rust's `Option<T>`. */
  datatype Option<+T> = None | Some(value: T)

  /** 2^64, one past the largest `u64`. */
  const U64_LIMIT: int := 0x1_0000_0000_0000_0000

  /** The values of Rust's `u64`. */
  type u64 = x: int | 0 <= x < U64_LIMIT

  /** `Iterator::nth(n)`: element number `n` (counting from 0), or `None` once
      the iterator is exhausted before reaching it. */
  function Nth<T>(s: seq<T>, n: nat): (r: Option<T>)
    ensures r.Some? <==> n < |s|
    ensures r.Some? ==> r.value == s[n]
  {
    if n < |s| then Some(s[n]) else None
  }
}

=== FILE: frame_allocator.dfy ===
/** `BootInfoFrameAllocator`: a cursor `next` into the usable-frame sequence
    of a boot memory map. Each `allocate_frame` hands out element `next` (or
    `None` past the end) and then advances the cursor by one, whatever it
    returned. Frames are never given back. */
module FrameAllocator {
  import opened Base
  import opened Memory

  /** The allocator's two fields: the boot memory map and the cursor. */
  datatype BootInfoFrameAllocator = BootInfoFrameAllocator(memoryMap: MemoryMap, next: nat)

  /** Outcome of one `allocate_frame`: the allocator after the call and the
      frame it returned. */
  datatype Allocation = Allocation(allocator: BootInfoFrameAllocator, frame: Option<Frame>)

  /** Outcome of several successive `allocate_frame` calls, in call order. */
  datatype Run = Run(allocator: BootInfoFrameAllocator, frames: seq<Option<Frame>>)

  /** `BootInfoFrameAllocator::init`: the cursor starts at the first frame. */
  function Init(m: MemoryMap): (a: BootInfoFrameAllocator)
    ensures a.memoryMap == m
    ensures a.next == 0
  {
    BootInfoFrameAllocator(m, 0)
  }

  /** `allocate_frame`: `useable_frames().nth(next)`, then `next += 1`. */
  function AllocateFrame(a: BootInfoFrameAllocator): (r: Allocation)
    requires ValidMap(a.memoryMap)
    ensures r.allocator.memoryMap == a.memoryMap
    ensures r.allocator.next == a.next + 1
    ensures r.frame.Some? <==> a.next < |UsableFrames(a.memoryMap)|
    ensures r.frame.Some? ==> r.frame.value == UsableFrames(a.memoryMap)[a.next]
  {
    Allocation(a.(next := a.next + 1), Nth(UsableFrames(a.memoryMap), a.next))
  }

  /** `allocate_frame` without building the frame sequence: find the
      address at position `next` independently and align only that one down
      to its frame. The source's chain instead pulls, and maps to a frame,
      every address up to position `next`; the frame is the same. */
  method AllocateFrameLazily(a: BootInfoFrameAllocator) returns (r: Allocation)
    requires ValidMap(a.memoryMap)
    ensures r == AllocateFrame(a)
  {
    var found := NthUsableAddress(a.memoryMap, a.next);
    var frame: Option<Frame> := None;
    if found.Some? {
      frame := Some(ContainingFrame(found.value));
    }
    FramesNth(a.memoryMap, a.next);
    r := Allocation(a.(next := a.next + 1), frame);
  }

  /** An independent computation of element `n` of the `filter`/`flat_map`
      chain: skip each earlier usable region by its step count until the
      region holding position `n` is reached. The source's default `nth`
      instead pulls every address before position `n` one at a time. */
  method NthUsableAddress(m: MemoryMap, n: nat) returns (found: Option<nat>)
    ensures found == Nth(UsableAddresses(m), n)
  {
    var skip: nat := n;
    var rest := m;
    found := None;
    while rest != [] && found.None?
      invariant found.None? ==> Nth(UsableAddresses(m), n) == Nth(UsableAddresses(rest), skip)
      invariant found.Some? ==> Nth(UsableAddresses(m), n) == found
      decreases |rest|
    {
      var region := rest[0];
      WalkStep(rest, skip);
      if IsUsable(region) {
        var count := StepCount(region.startAddr, region.endAddr);
        if skip < count {
          found := Some(region.startAddr + skip * FRAME_SIZE);
        } else {
          skip := skip - count;
        }
      }
      rest := rest[1..];
    }
  }

  /** One step of the lazy walk: position `skip` of the address sequence is
      either inside the first entry's walk or `n` positions further into the
      rest of the map, where `n` is what the first entry contributes. */
  lemma WalkStep(m: MemoryMap, skip: nat)
    requires m != []
    ensures var n := if IsUsable(m[0]) then StepCount(m[0].startAddr, m[0].endAddr) else 0;
            Nth(UsableAddresses(m), skip) ==
              if skip < n then Some(m[0].startAddr + skip * FRAME_SIZE)
              else Nth(UsableAddresses(m[1..]), skip - n)
  {
    var head := EntryAddresses(m[0]);
    var tail := UsableAddresses(m[1..]);
    UsableAddressesCons(m);
    if skip < |head| {
      assert (head + tail)[skip] == head[skip];
      assert head[skip] == StepBy(m[0].startAddr, m[0].endAddr)[skip];
    } else if skip < |head| + |tail| {
      assert (head + tail)[skip] == tail[skip - |head|];
    }
  }

  /** Position `k` of `useable_frames` is the frame containing position `k`
      of the generating addresses. */
  lemma FramesNth(m: MemoryMap, k: nat)
    requires ValidMap(m)
    ensures Nth(UsableFrames(m), k) ==
              match Nth(UsableAddresses(m), k)
              case Some(addr) => Some(ContainingFrame(addr))
              case None => None
  {
  }

  /** `k` successive `allocate_frame` calls. */
  function AllocateMany(a: BootInfoFrameAllocator, k: nat): (r: Run)
    requires ValidMap(a.memoryMap)
    ensures r.allocator.memoryMap == a.memoryMap
    ensures r.allocator.next == a.next + k
    ensures |r.frames| == k
    ensures forall i :: 0 <= i < k ==> r.frames[i] == Nth(UsableFrames(a.memoryMap), a.next + i)
    decreases k
  {
    if k == 0 then Run(a, [])
    else
      var step := AllocateFrame(a);
      var rest := AllocateMany(step.allocator, k - 1);
      Run(rest.allocator, [step.frame] + rest.frames)
  }

  // ---------------------------------------------------------------------------
  // Lemmas
  // ---------------------------------------------------------------------------

  /** A fresh allocator's first call returns the map's first usable frame,
      or `None` when the map has no usable frame at all. */
  lemma InitFirstAllocation(m: MemoryMap)
    requires ValidMap(m)
    ensures AllocateFrame(Init(m)).allocator == BootInfoFrameAllocator(m, 1)
    ensures UsableFrameTotal(m) == 0 ==> AllocateFrame(Init(m)).frame == None
    ensures UsableFrameTotal(m) > 0 ==>
              0 < |UsableFrames(m)| && AllocateFrame(Init(m)).frame == Some(UsableFrames(m)[0])
  {
    UsableFrameCount(m);
  }

  /** Exhaustion: when the map holds N usable frames, calls 1..N of a fresh
      allocator succeed and every later call reports `None`. */
  lemma Exhaustion(m: MemoryMap, k: nat)
    requires ValidMap(m)
    ensures forall i :: 0 <= i < k ==>
              (AllocateMany(Init(m), k).frames[i].Some? <==> i < UsableFrameTotal(m))
  {
    UsableFrameCount(m);
  }

  /** Once a call returns `None`, every later call returns `None` too,
      because the cursor only moves forward. */
  lemma StaysExhausted(a: BootInfoFrameAllocator, k: nat)
    requires ValidMap(a.memoryMap)
    requires AllocateFrame(a).frame == None
    ensures forall i :: 0 <= i < k ==> AllocateMany(AllocateFrame(a).allocator, k).frames[i] == None
  {
  }

  /** Every frame handed out is 4096-aligned and comes from an address inside
      a `Usable` region of the map. */
  lemma AllocatedFrameIsUsable(a: BootInfoFrameAllocator)
    requires ValidMap(a.memoryMap)
    requires AllocateFrame(a).frame.Some?
    ensures AllocateFrame(a).frame.value.startAddress % FRAME_SIZE == 0
    ensures exists k, addr :: 0 <= k < |a.memoryMap| && IsUsable(a.memoryMap[k]) &&
              a.memoryMap[k].startAddr <= addr < a.memoryMap[k].endAddr &&
              AllocateFrame(a).frame.value == ContainingFrame(addr)
  {
    UsableFramesFromUsableRegions(a.memoryMap, a.next);
  }

  /** No frame is handed out twice: successive calls read distinct positions
      of the frame sequence, and when usable regions are frame-aligned and
      pairwise disjoint distinct positions hold distinct frames. */
  lemma NoFrameAllocatedTwice(a: BootInfoFrameAllocator, k: nat)
    requires ValidMap(a.memoryMap)
    requires UsableStartsAligned(a.memoryMap)
    requires UsablePairwiseDisjoint(a.memoryMap)
    ensures forall i, j :: 0 <= i < j < k && AllocateMany(a, k).frames[i].Some? ==>
              AllocateMany(a, k).frames[i] != AllocateMany(a, k).frames[j]
  {
    UsableFramesDistinct(a.memoryMap);
  }
}

=== FILE: memory.dfy ===
/** The boot memory map and the sequence of usable 4 KiB frames that
    `BootInfoFrameAllocator::useable_frames` derives from it: keep the
    `Usable` regions, step through each `[start, end)` range by 4096 and align
    every address down to the frame that contains it. */
module Memory {
  import opened Base

  /** Size of a 4 KiB frame, which is also the step of the address walk. */
  const FRAME_SIZE: nat := 4096

  /** `PhysAddr::new` panics unless bits 52..63 of the address are clear,
      i.e. unless the address is below 2^52. */
  const PHYS_ADDR_LIMIT: nat := 0x10_0000_0000_0000

  /** The bootloader's `MemoryRegionType`, simplified: its variants that carry
      an unrecognised firmware type code (from UEFI or from the BIOS) are
      folded into the single `Unknown`. Only `Usable` matters here. */
  datatype RegionType =
    | Usable
    | InUse
    | Reserved
    | AcpiReclaimable
    | AcpiNvs
    | BadMemory
    | Kernel
    | KernelStack
    | PageTable
    | Bootloader
    | FrameZero
    | Empty
    | BootInfo
    | Package
    | Unknown(code: nat)

  /** One entry of the boot memory map: the physical range
      `[startAddr, endAddr)` and its classification. */
  datatype Region = Region(startAddr: u64, endAddr: u64, regionType: RegionType)

  /** The bootloader's `MemoryMap`, in the order the bootloader lists it. */
  type MemoryMap = seq<Region>

  /** A `PhysFrame<Size4KiB>`, identified by its start address. */
  datatype Frame = Frame(startAddress: nat)

  predicate IsUsable(r: Region)
  {
    r.regionType == Usable
  }

  /** True when `a` is one of the addresses the walk over `r` produces. */
  predicate OnStep(r: Region, a: nat)
  {
    r.startAddr <= a < r.endAddr && (a - r.startAddr) % FRAME_SIZE == 0
  }

  /** Number of elements of `(start..end).step_by(4096)`: the length of the
      range divided by 4096, rounded up; an empty or inverted range yields none. */
  function StepCount(start: nat, end: nat): nat
  {
    if start < end then (end - start + FRAME_SIZE - 1) / FRAME_SIZE else 0
  }

  /** `(start..end).step_by(4096)`: `start`, `start + 4096`, ... while below `end`. */
  function StepBy(start: nat, end: nat): (r: seq<nat>)
    ensures |r| == StepCount(start, end)
    ensures forall i :: 0 <= i < |r| ==> r[i] == start + i * FRAME_SIZE
    ensures forall i :: 0 <= i < |r| ==> r[i] < end
    decreases if start < end then end - start else 0
  {
    if start < end then [start] + StepBy(start + FRAME_SIZE, end) else []
  }

  /** The addresses generated from one region, in strictly increasing order,
      one per started 4 KiB step of the range. */
  function RegionAddresses(r: Region): (addrs: seq<nat>)
    ensures |addrs| == StepCount(r.startAddr, r.endAddr)
    ensures forall i :: 0 <= i < |addrs| ==> OnStep(r, addrs[i])
    ensures forall i, j :: 0 <= i < j < |addrs| ==> addrs[i] < addrs[j]
  {
    var addrs := StepBy(r.startAddr, r.endAddr);
    assert forall i :: 0 <= i < |addrs| ==> addrs[i] - r.startAddr == i * FRAME_SIZE;
    addrs
  }

  /** The `filter` step: the `Usable` regions, in map order. */
  function UsableRegions(m: MemoryMap): (rs: seq<Region>)
    ensures forall i :: 0 <= i < |rs| ==> IsUsable(rs[i]) && rs[i] in m
    ensures forall i :: 0 <= i < |m| && IsUsable(m[i]) ==> m[i] in rs
  {
    if m == [] then []
    else (if IsUsable(m[0]) then [m[0]] else []) + UsableRegions(m[1..])
  }

  /** The `flat_map` step: the addresses of every region, region after region. */
  function FrameAddresses(rs: seq<Region>): (addrs: seq<nat>)
    ensures |addrs| == StepTotal(rs)
  {
    if rs == [] then [] else RegionAddresses(rs[0]) + FrameAddresses(rs[1..])
  }

  /** Sum of the step counts of the given regions. */
  function StepTotal(rs: seq<Region>): nat
  {
    if rs == [] then 0 else StepCount(rs[0].startAddr, rs[0].endAddr) + StepTotal(rs[1..])
  }

  /** The generating addresses behind `useable_frames`, before alignment. */
  function UsableAddresses(m: MemoryMap): seq<nat>
  {
    FrameAddresses(UsableRegions(m))
  }

  /** `PhysFrame::containing_address`: the 4 KiB frame that holds `addr`. */
  function ContainingFrame(addr: nat): (f: Frame)
    ensures f.startAddress % FRAME_SIZE == 0
    ensures f.startAddress <= addr < f.startAddress + FRAME_SIZE
  {
    Frame(addr - addr % FRAME_SIZE)
  }

  /** The final `map` step, with `PhysAddr::new` range check as precondition. */
  function ToFrames(addrs: seq<nat>): (fs: seq<Frame>)
    requires forall i :: 0 <= i < |addrs| ==> addrs[i] < PHYS_ADDR_LIMIT
    ensures |fs| == |addrs|
    ensures forall i :: 0 <= i < |fs| ==>
              fs[i].startAddress % FRAME_SIZE == 0 &&
              fs[i].startAddress <= addrs[i] < fs[i].startAddress + FRAME_SIZE
  {
    seq(|addrs|, i requires 0 <= i < |addrs| => ContainingFrame(addrs[i]))
  }

  /** Every address the map makes `useable_frames` turn into a `PhysAddr` is
      one `PhysAddr::new` accepts. */
  predicate ValidMap(m: MemoryMap)
  {
    forall a :: a in UsableAddresses(m) ==> a < PHYS_ADDR_LIMIT
  }

  /** `BootInfoFrameAllocator::useable_frames`, materialised. */
  function UsableFrames(m: MemoryMap): (fs: seq<Frame>)
    requires ValidMap(m)
    ensures |fs| == |UsableAddresses(m)|
    ensures forall i :: 0 <= i < |fs| ==>
              fs[i].startAddress % FRAME_SIZE == 0 &&
              fs[i].startAddress <= UsableAddresses(m)[i] < fs[i].startAddress + FRAME_SIZE
  {
    var addrs := UsableAddresses(m);
    assert forall i :: 0 <= i < |addrs| ==> addrs[i] in addrs;
    ToFrames(addrs)
  }

  /** The addresses one map entry contributes: its walk if usable, else none. */
  function EntryAddresses(r: Region): seq<nat>
  {
    if IsUsable(r) then RegionAddresses(r) else []
  }

  /** Total count of frames the usable regions yield, region by region. */
  function UsableFrameTotal(m: MemoryMap): nat
  {
    if m == [] then 0
    else (if IsUsable(m[0]) then StepCount(m[0].startAddr, m[0].endAddr) else 0)
         + UsableFrameTotal(m[1..])
  }

  /** Two ranges share no address (an empty range is disjoint from all). */
  predicate Disjoint(a: Region, b: Region)
  {
    a.endAddr <= a.startAddr || b.endAddr <= b.startAddr ||
    a.endAddr <= b.startAddr || b.endAddr <= a.startAddr
  }

  /** Range `a` lies wholly below range `b` (or one of them is empty). */
  predicate Below(a: Region, b: Region)
  {
    a.endAddr <= a.startAddr || b.endAddr <= b.startAddr || a.endAddr <= b.startAddr
  }

  predicate UsablePairwiseDisjoint(m: MemoryMap)
  {
    forall i, j :: 0 <= i < j < |m| && IsUsable(m[i]) && IsUsable(m[j]) ==> Disjoint(m[i], m[j])
  }

  predicate UsableAscending(m: MemoryMap)
  {
    forall i, j :: 0 <= i < j < |m| && IsUsable(m[i]) && IsUsable(m[j]) ==> Below(m[i], m[j])
  }

  predicate UsableStartsAligned(m: MemoryMap)
  {
    forall i :: 0 <= i < |m| && IsUsable(m[i]) ==> m[i].startAddr % FRAME_SIZE == 0
  }

  predicate NoDuplicates<T(==)>(s: seq<T>)
  {
    forall i, j :: 0 <= i < j < |s| ==> s[i] != s[j]
  }

  predicate StrictlyIncreasing(s: seq<nat>)
  {
    forall i, j :: 0 <= i < j < |s| ==> s[i] < s[j]
  }

  // ---------------------------------------------------------------------------
  // Lemmas
  // ---------------------------------------------------------------------------

  /** The walk over `[start, end)` produces exactly the addresses of the range
      that lie a whole number of steps above `start`. */
  lemma StepByMembership(start: nat, end: nat, a: nat)
    ensures a in StepBy(start, end) <==> start <= a < end && (a - start) % FRAME_SIZE == 0
  {
    var s := StepBy(start, end);
    if a in s {
      var i :| 0 <= i < |s| && s[i] == a;
      assert a - start == i * FRAME_SIZE;
    }
    if start <= a < end && (a - start) % FRAME_SIZE == 0 {
      var i := (a - start) / FRAME_SIZE;
      assert a - start == i * FRAME_SIZE;
      assert i < StepCount(start, end);
      assert s[i] == a;
    }
  }

  /** Peeling the first map entry off the address sequence. */
  lemma UsableAddressesCons(m: MemoryMap)
    requires m != []
    ensures UsableAddresses(m) == EntryAddresses(m[0]) + UsableAddresses(m[1..])
  {
    var tail := UsableRegions(m[1..]);
    if IsUsable(m[0]) {
      assert UsableRegions(m) == [m[0]] + tail;
      assert ([m[0]] + tail)[1..] == tail;
    } else {
      assert UsableRegions(m) == tail;
    }
  }

  /** Region order: the addresses of an earlier part of the map all come
      before the addresses of a later part, each part keeping its own order. */
  lemma UsableAddressesAppend(m1: MemoryMap, m2: MemoryMap)
    ensures UsableAddresses(m1 + m2) == UsableAddresses(m1) + UsableAddresses(m2)
  {
    UsableRegionsAppend(m1, m2);
    FrameAddressesAppend(UsableRegions(m1), UsableRegions(m2));
  }

  lemma {:induction false} UsableRegionsAppend(m1: MemoryMap, m2: MemoryMap)
    ensures UsableRegions(m1 + m2) == UsableRegions(m1) + UsableRegions(m2)
    decreases |m1|
  {
    if m1 == [] {
      assert m1 + m2 == m2;
    } else {
      assert (m1 + m2)[0] == m1[0];
      assert (m1 + m2)[1..] == m1[1..] + m2;
      UsableRegionsAppend(m1[1..], m2);
    }
  }

  lemma {:induction false} FrameAddressesAppend(rs1: seq<Region>, rs2: seq<Region>)
    ensures FrameAddresses(rs1 + rs2) == FrameAddresses(rs1) + FrameAddresses(rs2)
    decreases |rs1|
  {
    if rs1 == [] {
      assert rs1 + rs2 == rs2;
    } else {
      assert (rs1 + rs2)[0] == rs1[0];
      assert (rs1 + rs2)[1..] == rs1[1..] + rs2;
      FrameAddressesAppend(rs1[1..], rs2);
    }
  }

  /** Only `Usable` regions contribute: an address is generated if and only
      if it is a step of some usable region of the map. */
  lemma {:induction false} UsableAddressMembership(m: MemoryMap, a: nat)
    ensures a in UsableAddresses(m) <==>
            exists k :: 0 <= k < |m| && IsUsable(m[k]) && OnStep(m[k], a)
    decreases |m|
  {
    if m != [] {
      var head := EntryAddresses(m[0]);
      var tail := UsableAddresses(m[1..]);
      UsableAddressesCons(m);
      assert a in head + tail <==> a in head || a in tail;
      EntryMembership(m[0], a);
      UsableAddressMembership(m[1..], a);
      SomeUsableStepCons(m, a);
    }
  }

  lemma EntryMembership(r: Region, a: nat)
    ensures a in EntryAddresses(r) <==> IsUsable(r) && OnStep(r, a)
  {
    StepByMembership(r.startAddr, r.endAddr, a);
  }

  lemma SomeUsableStepCons(m: MemoryMap, a: nat)
    requires m != []
    ensures (exists k :: 0 <= k < |m| && IsUsable(m[k]) && OnStep(m[k], a)) <==>
            (IsUsable(m[0]) && OnStep(m[0], a)) ||
            (exists k :: 0 <= k < |m[1..]| && IsUsable(m[1..][k]) && OnStep(m[1..][k], a))
  {
    if exists k :: 0 <= k < |m| && IsUsable(m[k]) && OnStep(m[k], a) {
      var k :| 0 <= k < |m| && IsUsable(m[k]) && OnStep(m[k], a);
      if k > 0 {
        assert m[1..][k - 1] == m[k];
      }
    }
    if exists k :: 0 <= k < |m[1..]| && IsUsable(m[1..][k]) && OnStep(m[1..][k], a) {
      var k :| 0 <= k < |m[1..]| && IsUsable(m[1..][k]) && OnStep(m[1..][k], a);
      assert m[k + 1] == m[1..][k];
    }
  }

  /** The map yields one frame per started 4 KiB step of each usable region. */
  lemma {:induction false} UsableFrameCount(m: MemoryMap)
    requires ValidMap(m)
    ensures |UsableFrames(m)| == UsableFrameTotal(m)
  {
    UsableAddressCount(m);
  }

  /** The region-by-region count of the map is the step total of the
      regions the filter keeps. */
  lemma {:induction false} UsableFrameTotalIsStepTotal(m: MemoryMap)
    ensures UsableFrameTotal(m) == StepTotal(UsableRegions(m))
    decreases |m|
  {
    if m != [] {
      UsableFrameTotalIsStepTotal(m[1..]);
      var rest := UsableRegions(m[1..]);
      if IsUsable(m[0]) {
        assert ([m[0]] + rest)[1..] == rest;
      } else {
        assert [] + rest == rest;
      }
    }
  }

  lemma {:induction false} UsableAddressCount(m: MemoryMap)
    ensures |UsableAddresses(m)| == UsableFrameTotal(m)
    decreases |m|
  {
    if m != [] {
      UsableAddressesCons(m);
      UsableAddressCount(m[1..]);
    }
  }

  /** Pairwise disjoint usable regions never generate the same address twice. */
  lemma {:induction false} UsableAddressesDistinct(m: MemoryMap)
    requires UsablePairwiseDisjoint(m)
    ensures NoDuplicates(UsableAddresses(m))
    decreases |m|
  {
    if m != [] {
      var head := EntryAddresses(m[0]);
      var tail := UsableAddresses(m[1..]);
      UsableAddressesCons(m);
      assert UsablePairwiseDisjoint(m[1..]) by {
        forall i, j | 0 <= i < j < |m[1..]| && IsUsable(m[1..][i]) && IsUsable(m[1..][j])
          ensures Disjoint(m[1..][i], m[1..][j])
        {
          assert m[1..][i] == m[i + 1] && m[1..][j] == m[j + 1];
        }
      }
      UsableAddressesDistinct(m[1..]);
      forall x, y | x in head && y in tail
        ensures x != y
      {
        var k := LaterRegionOf(m, y);
        assert Disjoint(m[0], m[k]);
      }
      ConcatNoDuplicates(head, tail);
    }
  }

  /** An address generated by the rest of the map comes from a usable
      region after the first entry. */
  lemma LaterRegionOf(m: MemoryMap, y: nat) returns (k: nat)
    requires m != [] && y in UsableAddresses(m[1..])
    ensures 1 <= k < |m| && IsUsable(m[k]) && OnStep(m[k], y)
  {
    UsableAddressMembership(m[1..], y);
    var j :| 0 <= j < |m[1..]| && IsUsable(m[1..][j]) && OnStep(m[1..][j], y);
    assert m[1..][j] == m[j + 1];
    k := j + 1;
  }

  lemma ConcatNoDuplicates(head: seq<nat>, tail: seq<nat>)
    requires NoDuplicates(head) && NoDuplicates(tail)
    requires forall x, y :: x in head && y in tail ==> x != y
    ensures NoDuplicates(head + tail)
  {
    var s := head + tail;
    forall i, j | 0 <= i < j < |s|
      ensures s[i] != s[j]
    {
      if j < |head| {
      } else if i >= |head| {
        assert s[i] == tail[i - |head|] && s[j] == tail[j - |head|];
      } else {
        assert s[i] in head && s[j] in tail;
      }
    }
  }

  /** With usable regions in ascending, non-overlapping order, the whole
      address sequence is strictly increasing. */
  lemma {:induction false} UsableAddressesSorted(m: MemoryMap)
    requires UsableAscending(m)
    ensures StrictlyIncreasing(UsableAddresses(m))
    decreases |m|
  {
    if m != [] {
      var head := EntryAddresses(m[0]);
      var tail := UsableAddresses(m[1..]);
      UsableAddressesCons(m);
      assert UsableAscending(m[1..]) by {
        forall i, j | 0 <= i < j < |m[1..]| && IsUsable(m[1..][i]) && IsUsable(m[1..][j])
          ensures Below(m[1..][i], m[1..][j])
        {
          assert m[1..][i] == m[i + 1] && m[1..][j] == m[j + 1];
        }
      }
      UsableAddressesSorted(m[1..]);
      forall x, y | x in head && y in tail
        ensures x < y
      {
        var k := LaterRegionOf(m, y);
        assert Below(m[0], m[k]);
      }
      ConcatIncreasing(head, tail);
    }
  }

  lemma ConcatIncreasing(head: seq<nat>, tail: seq<nat>)
    requires StrictlyIncreasing(head) && StrictlyIncreasing(tail)
    requires forall x, y :: x in head && y in tail ==> x < y
    ensures StrictlyIncreasing(head + tail)
  {
    var s := head + tail;
    forall i, j | 0 <= i < j < |s|
      ensures s[i] < s[j]
    {
      if j < |head| {
      } else if i >= |head| {
        assert s[i] == tail[i - |head|] && s[j] == tail[j - |head|];
      } else {
        assert s[i] in head && s[j] in tail;
      }
    }
  }

  /** When every usable region starts on a frame boundary, aligning down
      changes nothing: each frame starts exactly at its generating address. */
  lemma AlignedFramesAreAddresses(m: MemoryMap)
    requires ValidMap(m)
    requires UsableStartsAligned(m)
    ensures forall i :: 0 <= i < |UsableFrames(m)| ==>
              UsableFrames(m)[i].startAddress == UsableAddresses(m)[i]
  {
    var addrs := UsableAddresses(m);
    var fs := UsableFrames(m);
    forall i | 0 <= i < |fs|
      ensures fs[i].startAddress == addrs[i]
    {
      assert addrs[i] in addrs;
      UsableAddressMembership(m, addrs[i]);
      var k :| 0 <= k < |m| && IsUsable(m[k]) && OnStep(m[k], addrs[i]);
      AlignedStep(m[k].startAddr, addrs[i]);
      AlignedFrameStart(fs[i].startAddress, addrs[i]);
    }
  }

  lemma AlignedStep(start: nat, a: nat)
    requires start % FRAME_SIZE == 0 && start <= a && (a - start) % FRAME_SIZE == 0
    ensures a % FRAME_SIZE == 0
  {
    var q := (a - start) / FRAME_SIZE;
    var p := start / FRAME_SIZE;
    assert a == (p + q) * FRAME_SIZE;
  }

  lemma AlignedFrameStart(f: nat, a: nat)
    requires f % FRAME_SIZE == 0 && a % FRAME_SIZE == 0 && f <= a < f + FRAME_SIZE
    ensures f == a
  {
    var p := f / FRAME_SIZE;
    var q := a / FRAME_SIZE;
    assert p * FRAME_SIZE <= q * FRAME_SIZE < (p + 1) * FRAME_SIZE;
  }

  /** No physical frame appears twice in `useable_frames` when the usable
      regions are frame-aligned and pairwise disjoint. */
  lemma UsableFramesDistinct(m: MemoryMap)
    requires ValidMap(m)
    requires UsableStartsAligned(m)
    requires UsablePairwiseDisjoint(m)
    ensures NoDuplicates(UsableFrames(m))
  {
    AlignedFramesAreAddresses(m);
    UsableAddressesDistinct(m);
  }

  /** Every frame of `useable_frames` starts on a 4096 boundary and contains
      its generating address, which lies in some usable region. */
  lemma UsableFramesFromUsableRegions(m: MemoryMap, i: nat)
    requires ValidMap(m)
    requires i < |UsableFrames(m)|
    ensures UsableFrames(m)[i].startAddress % FRAME_SIZE == 0
    ensures exists k :: 0 <= k < |m| && IsUsable(m[k]) &&
              m[k].startAddr <= UsableAddresses(m)[i] < m[k].endAddr &&
              ContainingFrame(UsableAddresses(m)[i]) == UsableFrames(m)[i]
  {
    var a := UsableAddresses(m)[i];
    assert a in UsableAddresses(m);
    UsableAddressMembership(m, a);
  }

  /** A usable range whose length is not a multiple of 4096 is not rejected:
      its trailing partial step still yields a frame. */
  lemma PartialFrameKept()
    ensures UsableFrames([Region(0x1000, 0x2001, Usable)]) == [Frame(0x1000), Frame(0x2000)]
  {
    var m := [Region(0x1000, 0x2001, Usable)];
    assert UsableRegions(m) == m;
    assert StepBy(0x1000, 0x2001) == [0x1000, 0x2000];
    assert UsableAddresses(m) == [0x1000, 0x2000];
  }

  /** A usable range that starts off a 4 KiB boundary can end in a frame
      that is never produced: 4000..4100 yields only frame 0, which ends at
      4096, so bytes 4096..4099 of the region lie in no yielded frame. */
  lemma UnalignedTailUncovered()
    ensures UsableFrames([Region(4000, 4100, Usable)]) == [Frame(0)]
    ensures Frame(0).startAddress + FRAME_SIZE < 4100
  {
    var m := [Region(4000, 4100, Usable)];
    assert UsableRegions(m) == m;
    assert StepBy(4000, 4100) == [4000];
    assert UsableAddresses(m) == [4000];
  }

  /** Disjointness alone does not prevent repeats: two disjoint usable
      regions inside the same 4 KiB frame, the second not starting on a
      4 KiB boundary, both yield that frame. */
  lemma UnalignedRegionsShareFrame()
    ensures UsablePairwiseDisjoint([Region(0, 100, Usable), Region(200, 300, Usable)])
    ensures UsableFrames([Region(0, 100, Usable), Region(200, 300, Usable)]) == [Frame(0), Frame(0)]
  {
    var m := [Region(0, 100, Usable), Region(200, 300, Usable)];
    assert UsableRegions(m[1..]) == [m[1]];
    assert UsableRegions(m) == m;
    assert StepBy(0, 100) == [0];
    assert StepBy(200, 300) == [200];
    assert FrameAddresses(m[1..]) == [200];
    assert UsableAddresses(m) == [0, 200];
  }

  /** Frames keep memory-map order: the frames of a concatenated map are the
      frames of the first part followed by those of the second. */
  lemma UsableFramesAppend(m1: MemoryMap, m2: MemoryMap)
    requires ValidMap(m1 + m2)
    ensures ValidMap(m1) && ValidMap(m2)
    ensures UsableFrames(m1 + m2) == UsableFrames(m1) + UsableFrames(m2)
  {
    UsableAddressesAppend(m1, m2);
    ValidMapAppend(m1, m2);
    var a1 := UsableAddresses(m1);
    var a2 := UsableAddresses(m2);
    assert forall i :: 0 <= i < |a1| ==> a1[i] in a1;
    assert forall i :: 0 <= i < |a2| ==> a2[i] in a2;
    ToFramesAppend(a1, a2);
  }

  lemma ToFramesAppend(a1: seq<nat>, a2: seq<nat>)
    requires forall i :: 0 <= i < |a1| ==> a1[i] < PHYS_ADDR_LIMIT
    requires forall i :: 0 <= i < |a2| ==> a2[i] < PHYS_ADDR_LIMIT
    ensures ToFrames(a1 + a2) == ToFrames(a1) + ToFrames(a2)
  {
    var a := a1 + a2;
    assert forall i :: 0 <= i < |a| ==> a[i] == if i < |a1| then a1[i] else a2[i - |a1|];
    var f := ToFrames(a);
    var g := ToFrames(a1) + ToFrames(a2);
    forall i | 0 <= i < |f|
      ensures f[i] == g[i]
    {
      if i < |a1| {
        FrameUnique(f[i].startAddress, g[i].startAddress, a1[i]);
      } else {
        FrameUnique(f[i].startAddress, g[i].startAddress, a2[i - |a1|]);
      }
    }
  }

  lemma ValidMapAppend(m1: MemoryMap, m2: MemoryMap)
    requires ValidMap(m1 + m2)
    ensures ValidMap(m1) && ValidMap(m2)
  {
    UsableAddressesAppend(m1, m2);
    var a1 := UsableAddresses(m1);
    var a2 := UsableAddresses(m2);
    forall a | a in a1
      ensures a < PHYS_ADDR_LIMIT
    {
      assert a in a1 + a2;
    }
    forall a | a in a2
      ensures a < PHYS_ADDR_LIMIT
    {
      assert a in a1 + a2;
    }
  }

  /** Frame `i` of `useable_frames` is the frame containing address `i`. */
  lemma UsableFrameAt(m: MemoryMap, i: nat)
    requires ValidMap(m)
    requires i < |UsableFrames(m)|
    ensures UsableFrames(m)[i] == ContainingFrame(UsableAddresses(m)[i])
  {
    var a := UsableAddresses(m)[i];
    FrameUnique(UsableFrames(m)[i].startAddress, ContainingFrame(a).startAddress, a);
  }

  /** Within one usable region, frames have strictly increasing start
      addresses, whether or not the region is aligned: frame `i` starts
      exactly `4096 * i` above the frame containing the region's start. */
  lemma RegionFramesIncreasing(r: Region)
    requires IsUsable(r)
    requires ValidMap([r])
    ensures forall i :: 0 <= i < |UsableFrames([r])| ==>
              UsableFrames([r])[i].startAddress == ContainingFrame(r.startAddr).startAddress + i * FRAME_SIZE
    ensures forall i, j :: 0 <= i < j < |UsableFrames([r])| ==>
              UsableFrames([r])[i].startAddress < UsableFrames([r])[j].startAddress
  {
    var m := [r];
    assert UsableRegions(m) == m;
    assert UsableAddresses(m) == RegionAddresses(r);
    var addrs := RegionAddresses(r);
    var fs := UsableFrames(m);
    var base := ContainingFrame(r.startAddr).startAddress;
    forall i | 0 <= i < |fs|
      ensures fs[i].startAddress == base + i * FRAME_SIZE
    {
      assert addrs[i] == StepBy(r.startAddr, r.endAddr)[i];
      AlignedShift(base, i);
      FrameUnique(fs[i].startAddress, base + i * FRAME_SIZE, addrs[i]);
    }
  }

  lemma AlignedShift(f: nat, i: nat)
    requires f % FRAME_SIZE == 0
    ensures (f + i * FRAME_SIZE) % FRAME_SIZE == 0
  {
    var p := f / FRAME_SIZE;
    assert f + i * FRAME_SIZE == (p + i) * FRAME_SIZE;
  }

  /** At most one 4096-aligned frame start lies within 4096 below an address. */
  lemma FrameUnique(f: nat, g: nat, a: nat)
    requires f % FRAME_SIZE == 0 && f <= a < f + FRAME_SIZE
    requires g % FRAME_SIZE == 0 && g <= a < g + FRAME_SIZE
    ensures f == g
  {
    var p := f / FRAME_SIZE;
    var q := g / FRAME_SIZE;
    assert f == p * FRAME_SIZE && g == q * FRAME_SIZE;
    assert p * FRAME_SIZE < (q + 1) * FRAME_SIZE && q * FRAME_SIZE < (p + 1) * FRAME_SIZE;
  }
}

=== FILE: task.dfy ===
/** Task identifiers and task creation. A process-wide `NEXT_ID` counter,
    an `AtomicU64` starting at 0, hands out ids with `fetch_add(1)`: each call
    returns the current value and leaves the counter one larger, wrapping to 0
    after 2^64 - 1. Here the counter is threaded through the calls as a value,
    in a single-threaded reading of the atomic. */
module Task {
  import opened Base

  /** `TaskId(u64)`; its derived `Ord` compares the wrapped integers. */
  datatype TaskId = TaskId(value: u64)

  /** The derived strict order `<` on `TaskId`. */
  predicate IdLess(a: TaskId, b: TaskId)
  {
    a.value < b.value
  }

  /** The value of the static `NEXT_ID`. */
  datatype IdCounter = IdCounter(nextId: u64)

  /** `AtomicU64::new(0)`. */
  const INITIAL_COUNTER: IdCounter := IdCounter(0)

  /** Outcome of one `TaskId::new`: the id and the counter after the call. */
  datatype Issued = Issued(id: TaskId, counter: IdCounter)

  /** Outcome of several successive `TaskId::new` calls, in call order. */
  datatype IdRun = IdRun(ids: seq<TaskId>, counter: IdCounter)

  /** `Task`: its id and its pinned future, an opaque value of type `F`. */
  datatype Task<F> = Task(id: TaskId, future: F)

  /** Outcome of one `Task::new`: the task and the counter after the call. */
  datatype Spawned<F> = Spawned(task: Task<F>, counter: IdCounter)

  /** `Poll<()>`. */
  datatype Poll = Ready | Pending

  /** `TaskId::new`: the id is the counter's value before the call; the
      counter moves one up, or back to 0 from the largest `u64`. */
  function NewTaskId(c: IdCounter): (r: Issued)
    ensures r.id.value == c.nextId
    ensures c.nextId + 1 < U64_LIMIT ==>
              r.counter.nextId == c.nextId + 1 && IdLess(r.id, TaskId(r.counter.nextId))
    ensures c.nextId + 1 == U64_LIMIT ==> r.counter == INITIAL_COUNTER
  {
    Issued(TaskId(c.nextId), IdCounter((c.nextId + 1) % U64_LIMIT))
  }

  /** `k` successive `TaskId::new` calls: call number `i` (from 0) yields the
      starting value plus `i`, modulo 2^64. */
  function IssueIds(c: IdCounter, k: nat): (r: IdRun)
    ensures |r.ids| == k
    ensures r.counter.nextId == (c.nextId + k) % U64_LIMIT
    ensures forall i :: 0 <= i < k ==> r.ids[i].value == (c.nextId + i) % U64_LIMIT
    decreases k
  {
    if k == 0 then IdRun([], c)
    else
      var first := NewTaskId(c);
      var rest := IssueIds(first.counter, k - 1);
      assert forall j :: 0 <= j < k - 1 ==> rest.ids[j].value == (c.nextId + 1 + j) % U64_LIMIT by {
        forall j | 0 <= j < k - 1
          ensures rest.ids[j].value == (c.nextId + 1 + j) % U64_LIMIT
        {
          ModShift(c.nextId, j);
        }
      }
      ModShift(c.nextId, k - 1);
      IdRun([first.id] + rest.ids, rest.counter)
  }

  /** `Task::new`: a task owning `future` under a fresh id from `TaskId::new`. */
  function NewTask<F>(c: IdCounter, future: F): (r: Spawned<F>)
    ensures r.task.future == future
    ensures r.task.id.value == c.nextId
    ensures r.counter == NewTaskId(c).counter
  {
    var issued := NewTaskId(c);
    Spawned(Task(issued.id, future), issued.counter)
  }

  /** `Task::poll`: forwards to the future, here the function `step` standing
      for the future's own `poll`; the task keeps its id. */
  function PollTask<F>(t: Task<F>, step: F -> (F, Poll)): (r: (Task<F>, Poll))
    ensures r.0.id == t.id
    ensures r.0.future == step(t.future).0 && r.1 == step(t.future).1
  {
    var (future, poll) := step(t.future);
    (Task(t.id, future), poll)
  }

  /** Successive `Task::new` calls, one per future, in order. While fewer
      than 2^64 ids are issued from `c`, the ids are strictly increasing. */
  method SpawnTasks<F>(c: IdCounter, futures: seq<F>) returns (tasks: seq<Task<F>>, after: IdCounter)
    ensures |tasks| == |futures|
    ensures after.nextId == (c.nextId + |futures|) % U64_LIMIT
    ensures forall i :: 0 <= i < |tasks| ==>
              tasks[i].future == futures[i] && tasks[i].id.value == (c.nextId + i) % U64_LIMIT
    ensures c.nextId + |futures| <= U64_LIMIT ==>
              forall i, j :: 0 <= i < j < |tasks| ==> IdLess(tasks[i].id, tasks[j].id)
  {
    tasks := [];
    after := c;
    for k := 0 to |futures|
      invariant |tasks| == k
      invariant after.nextId == (c.nextId + k) % U64_LIMIT
      invariant forall i :: 0 <= i < k ==>
                  tasks[i].future == futures[i] && tasks[i].id.value == (c.nextId + i) % U64_LIMIT
    {
      var spawned := NewTask(after, futures[k]);
      ModShift(c.nextId, k);
      tasks := tasks + [spawned.task];
      after := spawned.counter;
    }
  }

  // ---------------------------------------------------------------------------
  // Lemmas
  // ---------------------------------------------------------------------------

  lemma ModShift(x: int, j: nat)
    requires 0 <= x
    ensures ((x + 1) % U64_LIMIT + j) % U64_LIMIT == (x + 1 + j) % U64_LIMIT
  {
  }

  /** Starting from `AtomicU64::new(0)`, the `i`-th call (from 0) yields
      `TaskId(i)`, for the first 2^64 calls; in particular the first id is 0. */
  lemma IdsAreCallIndices(k: nat)
    requires k <= U64_LIMIT
    ensures forall i :: 0 <= i < k ==> IssueIds(INITIAL_COUNTER, k).ids[i] == TaskId(i)
  {
  }

  /** As long as fewer than 2^64 ids are issued from `c`, later calls yield
      strictly larger ids, hence all of them are pairwise distinct. */
  lemma IdsStrictlyIncreasing(c: IdCounter, k: nat)
    requires c.nextId + k <= U64_LIMIT
    ensures forall i, j :: 0 <= i < j < k ==> IdLess(IssueIds(c, k).ids[i], IssueIds(c, k).ids[j])
    ensures forall i, j :: 0 <= i < j < k ==> IssueIds(c, k).ids[i] != IssueIds(c, k).ids[j]
  {
    var ids := IssueIds(c, k).ids;
    assert forall i :: 0 <= i < k ==> ids[i].value == c.nextId + i;
  }

  /** The wrap-around of `fetch_add`: call number 2^64 after any state hands
      out the same id as the first call did. */
  lemma IdRepeatsAfterWrap(c: IdCounter)
    ensures IssueIds(c, U64_LIMIT + 1).ids[U64_LIMIT] == IssueIds(c, U64_LIMIT + 1).ids[0]
  {
  }

  /** The derived order on `TaskId` is a strict total order: irreflexive,
      transitive, and any two distinct ids are comparable. */
  lemma IdLessStrictTotalOrder(a: TaskId, b: TaskId, c: TaskId)
    ensures !IdLess(a, a)
    ensures IdLess(a, b) && IdLess(b, c) ==> IdLess(a, c)
    ensures a != b ==> IdLess(a, b) || IdLess(b, a)
  {
  }
}
